=== FILE: README.md ===
# CInvaders game logic in Dafny

CInvaders is a small arcade game. A player steers an avatar around a canvas
with the arrow keys or the pointer. Invaders appear at random places and at
random times. Every tick the player moves, and each invader the player
touches is removed and scores a point. A damage meter grows with the number
of invaders left alive and decays slowly when none are left. When the meter
reaches 100 the round ends ("Burnt Out!"), and a click starts the next one.

This project models the game logic of `cinvaders.py` without the tkinter
layer, as immutable data and pure transitions:

- `Geometry`: the `Thing` circle with its cached squared radius, and the
  collision test. The test uses only the caller's radius, and a distance
  equal to the radius counts as a hit.
- `Players`: the player's move vector, the key press and release handlers,
  the pointer seek, the per-tick update, and the scoring collision test.
- `CInvaders`: the game state, the tick, the removal loop, the reset and
  the spawner.
- `EventLoop`: which timers are armed and whether the restart click is
  bound, with one `Handle` per event. Its invariant: a running round has both
  timers armed and no click handler, and a finished round has no timer
  armed and the click handler bound.
- `RealArith`: small facts about products of reals used by the proofs.

Coordinates, damage and the constants 0.2 and 0.998 are Dafny `real`s, so
the model has no floating-point rounding. The random draws (spawn position
and spawn delay), the canvas size and the square root used by the pointer
seek are parameters of the transitions, with preconditions giving their
ranges. A transition that a timer drives returns the delay before it fires
again, or `None` when it is not rescheduled.

The source removes a hit invader with `list.remove`, which matches by
object identity. The model removes the first invader equal by value
(`CInvaders.RemoveFirst`). Two invaders equal by value have the same centre
and radius, so they always get the same verdict, and both removals give the
same sequence. `CInvaders.Sweep` models the loop over the snapshot step by
step and proves that it yields exactly the filter `CInvaders.Kept`.

A reset does not move the player: the code (cinvaders.py:128-138) resets
only damage, score, invaders and the running flag, so the player keeps its
position and move vector.

## Model

| member | source | states |
|---|---|---|
| Geometry.NewThing | cinvaders.py:8-14 | a new thing has the given centre and radius, and its cached squared radius equals radius² |
| Geometry.Collides | cinvaders.py:17-20 | a hit happens exactly when the squared centre distance is at most the caller's radius squared; the boundary counts |
| Geometry.CollidesIgnoresOtherRadius | cinvaders.py:17-20 | the other thing's radius and cached square never change the verdict |
| Geometry.CollidesNotSymmetric | cinvaders.py:17-20 | a witness: radius 10 at (0,0) hits radius 1 at (5,0), but not the other way round |
| Geometry.CollidesSymmetricForEqualRadii | cinvaders.py:17-20 | with equal squared radii the test gives the same verdict both ways |
| Geometry.CollidesBoundary | cinvaders.py:18 | a centre at distance exactly `radius` is a hit; any farther along the axis is a miss |
| Geometry.CollidesSameCentre | cinvaders.py:18 | a thing always hits a thing that shares its centre |
| Geometry.CollidesMonotoneInRadius | cinvaders.py:18 | a larger non-negative caller radius never loses a hit |
| Geometry.CollidesTranslationInvariant | cinvaders.py:18 | moving both things by the same offset keeps the verdict |
| Players.NewPlayer | cinvaders.py:29-36 | a new player has step 4, move (0,0), score 0 and a valid cached squared radius |
| Players.Collides | cinvaders.py:38-42 | the verdict is the circle test with the player as caller; a hit adds exactly 1 to the score, a miss adds 0; position, move and step never change |
| Players.CollidesTwiceScoresTwice | cinvaders.py:38-42 | testing a reachable thing twice scores twice, so the caller must test each invader once |
| Players.Moving | cinvaders.py:44-53 | Right/Left set only the x entry to +step/-step; Up/Down set only the y entry to -step/+step; any other key changes nothing |
| Players.StopMoving | cinvaders.py:55-60 | releasing Right or Left zeroes only the x entry; Up or Down zeroes only the y entry; any other key changes nothing |
| Players.MovingAxesIndependent | cinvaders.py:44-53 | a horizontal and a vertical press commute |
| Players.MovingLastPressWins | cinvaders.py:44-53 | of two presses on one axis the later one wins |
| Players.PressThenRelease | cinvaders.py:44-60 | a press followed by a release on the same axis leaves the same result as the release alone |
| Players.Toward | cinvaders.py:62-72 | inside the dead zone (4·dist² < radius²) the move becomes (0,0); outside it, the move has length \|step\|, is parallel to the pointer offset and points towards the pointer when step ≥ 0 |
| Players.DeadZone | cinvaders.py:65-66 | for a non-negative root `mag`, `mag < radius/2` holds exactly when 4·mag² < radius² |
| Players.UnitDirection | cinvaders.py:69-70 | dividing the offset by its length gives a vector of length 1 |
| Players.ScaledDirection | cinvaders.py:71-72 | scaling that unit vector by step gives length \|step\|, parallel to the offset and pointing the same way when step ≥ 0 |
| Players.Update | cinvaders.py:74-76 | x' = x + move[0] and y' = y + move[1]; radius, move, step and score are unchanged |
| Players.UpdateStill | cinvaders.py:74-76 | a player with move (0,0) stays where it is |
| Players.UpdateThenCollides | cinvaders.py:74-76 | testing after the update equals testing the unmoved player against the other thing shifted back by the move |
| CInvaders.Initial | cinvaders.py:87-106 | the first game has the player at (75,75) with radius 32, step 4 and move (0,0), no invaders, damage 0, score 0 and running set |
| CInvaders.KeptSnoc | cinvaders.py:118-121 | one more invader at the end joins the survivors exactly when the player cannot reach it |
| CInvaders.KeptMembers | cinvaders.py:118-121 | an invader survives exactly when it was present and the player does not reach it; survivors are a sub-multiset of the invaders |
| CInvaders.KeptAppend | cinvaders.py:118-121 | the filter distributes over concatenation, so survivors keep their original order |
| CInvaders.FirstIndex | cinvaders.py:121 | for a present invader, the position found holds it and no earlier position does |
| CInvaders.FirstIndexUnique | cinvaders.py:121 | the first position is the only one holding the invader with none before it |
| CInvaders.RemoveFirst | cinvaders.py:121 | removing a present invader shortens the sequence by exactly one |
| CInvaders.RemoveFirstMultiset | cinvaders.py:121 | removal takes exactly one copy of the invader out of the multiset and keeps every other invader |
| CInvaders.RemoveFirstAt | cinvaders.py:121 | when the invader first occurs right after a prefix, removal takes out exactly that copy and leaves the invaders before and after it in order |
| CInvaders.RemoveFirstSkips | cinvaders.py:121 | removing an invader absent from a prefix leaves that prefix in place |
| CInvaders.Sweep | cinvaders.py:118-121 | the removal loop over the snapshot leaves exactly the filtered survivors of the whole snapshot; score plus live count is conserved, so the score rises by the number removed; position, move and step are unchanged |
| CInvaders.SweepStep | cinvaders.py:118-121 | each loop step keeps the invariant "examined invaders that were missed, then the unexamined ones"; a hit invader is still in the live list when it is removed |
| CInvaders.NextDamage | cinvaders.py:122-125 | with survivors the damage grows by 0.2 per survivor and never falls; without survivors it becomes damage·0.998, stays non-negative and strictly falls when positive |
| CInvaders.Tick | cinvaders.py:109-126 | at damage ≥ 100 the round stops, nothing else changes and no next tick is due; below it the player moves by its move vector, the survivors are exactly the invaders the moved player misses in their original order, none of them is reachable, the score rises by the number removed, the damage follows NextDamage and the next tick is due after 50 ms |
| CInvaders.TickKeepsInv | cinvaders.py:117-125 | a tick keeps the player's cached squared radius valid, its radius positive and the damage non-negative |
| CInvaders.GameOverIsFinal | cinvaders.py:110-116 | a second tick after the round ended changes nothing |
| CInvaders.ResetThenTickRuns | cinvaders.py:128-138 | the first tick after a reset never ends the round and leaves damage 0 |
| CInvaders.IdleTick | cinvaders.py:117-123 | one tick below 100 with a still player and one unreachable invader raises damage by exactly 0.2 and changes nothing else |
| CInvaders.IdleRun | cinvaders.py:122-123 | with one unreachable invader and a player standing still, n ticks from damage 0 (while 0.2·n ≤ 100) give damage exactly 0.2·n and change nothing else |
| CInvaders.BurnOutAfter500Ticks | cinvaders.py:110-123 | in that setting, damage is below 100 after 499 ticks and exactly 100 after 500, and tick 501 ends the round |
| CInvaders.SpawnThenKept | cinvaders.py:118-121 | a spawned invader joins the end of the next survivors exactly when the player cannot reach it, and the earlier invaders fare as before |
| CInvaders.DecayFromFifty | cinvaders.py:124-125 | with no invaders, one tick takes damage 50 to 49.9 |
| CInvaders.TouchScores | cinvaders.py:117-121 | a still player of radius 32 at (0,0) removes an invader at (10,10), since 200 ≤ 1024, and scores one point |
| CInvaders.Reset | cinvaders.py:128-138 | damage 0, score 0, no invaders and running set; the player's position, radius, move and step are unchanged |
| CInvaders.Spawn | cinvaders.py:140-145 | exactly one invader is appended, at the drawn (x, y) within [0,width]×[0,height], and the earlier invaders are unchanged; a running game re-arms the spawner after 2500 + extra ms, where extra is the draw from [0, 2500], so within [2500, 5000] ms, and a stopped one does not |
| EventLoop.Start | cinvaders.py:104-106 | start-up arms both timers with the initial game running, which satisfies the loop invariant |
| EventLoop.Handle | cinvaders.py:101-145 | every handler keeps the loop invariant; key and pointer handlers change only the move vector; a click does nothing while running and restarts a finished round; a tick runs `CInvaders.Tick` and a spawn runs `CInvaders.Spawn` on the game; after a tick the game runs exactly when damage was below 100 |
| EventLoop.NoTimersWhileOver | cinvaders.py:114-116 | once the round is over, no tick and no spawn can fire |
| EventLoop.GameOverOnce | cinvaders.py:110-116 | the tick that ends the round disarms both timers and binds the click, so no second tick can end the round again; damage, player and invaders are unchanged |
| EventLoop.ClickResumes | cinvaders.py:134-138 | a click after the round ended re-arms both timers at once and unbinds itself; the player stays in place |

## Left out

- Everything drawn on the screen (cinvaders.py:2-3, 12, 15, 26, 34-35, 77, 81-83, 85-86, 89-95, 97, 111-112, 120, 132, 135): the window, the canvas, the sprites and their canvas ids, the damage bar and the game-over message. The damage value lives in a Tk variable (cinvaders.py:87-88); only that wrapper is left out, and the value itself is `Game.damage`, starting at 0. Drawing changes no game state; the model keeps positions and leaves the picture out. The binding and unbinding of the restart click (cinvaders.py:113, 136) is kept as the `clickBound` flag of `EventLoop.Loop`.
- The `interval` argument of the game's constructor (cinvaders.py:80, 84) is fixed at its default, 50 ms, as `CInvaders.Interval`.
- Timer scheduling with `after`, `after_cancel`, `after_idle` and `mainloop` (cinvaders.py:104-105, 114, 126, 137-138, 145, 148). A timer is an "armed" flag, and each timer-driven transition returns its next delay. The order in which armed timers fire is not modelled: any armed timer may fire next.
- `randint` (cinvaders.py:141-142, 145). The drawn coordinates, the drawn extra delay and the canvas width and height are parameters, with preconditions giving their ranges.
- The square root in the pointer seek (cinvaders.py:65). It is passed in as `mag` with the precondition mag ≥ 0 and mag² = dx² + dy². There is no floating-point normalisation, so the unit length of the move is exact in the model.
- Players.Toward: requires a positive player radius. With radius 0 and the pointer exactly on the centre the source would divide by zero; the game's only player has radius 32.
- The invader radius, which is half the sprite's pixel height (cinvaders.py:25). It comes from the image library and is never used by the player's collision test. It is an opaque real carried by `EventLoop.Loop`.
- Floating-point rounding of the damage arithmetic: `real` is exact, so in the 500-tick scenario the model's damage is exactly 100 after 500 ticks. The model states nothing about the rounded double-precision sum.

=== FILE: cinvaders.dfy ===
/** The game state and its three transitions: the tick, the reset after a
    game over, and the spawn of one invader.

    The game owns the player, the live invaders in spawn order, the damage
    meter and the running flag. A tick either ends the round (damage at the
    threshold) or moves the player, removes every invader the moved player
    now touches (one point each) and then raises the damage by a fixed rate
    per surviving invader, or lets it decay when none survive. Timers are
    not modelled as such: each timer-driven transition returns the delay
    after which it would fire again, or `None` when it would not.
 */
module CInvaders {
  import opened Wrappers
  import opened Geometry
  import Players

  /** An invader is a circle; its radius comes from its sprite. */
  datatype Invader = Invader(body: Thing)

  datatype Game = Game(player: Players.Player, invaders: seq<Invader>, damage: real, running: bool)

  /** Damage added per surviving invader per tick. */
  const Ppi: real := 0.2
  /** Damage factor per tick when no invader survives. */
  const Decay: real := 0.998
  /** Damage at which the round ends. */
  const Threshold: real := 100.0
  /** Milliseconds between ticks. */
  const Interval: nat := 50
  /** Base of the spawn delay in milliseconds; each delay is drawn from
      [SpawnTimer, 2 * SpawnTimer]. */
  const SpawnTimer: nat := 2500

  /** The start of a game: the player at (75, 75) with radius 32, no
      invaders, no damage, running. */
  function Initial(): (g: Game)
    ensures Inv(g) && g.running && g.invaders == [] && g.damage == 0.0
    ensures g.player.score == 0 && g.player.move == Players.Vec(0.0, 0.0)
    ensures g.player.body.x == 75.0 && g.player.body.y == 75.0 && g.player.body.radius == 32.0
    ensures g.player.step == Players.Step
  {
    Game(Players.NewPlayer(75.0, 75.0, 32.0), [], 0.0, true)
  }

  /** What every reachable game satisfies: the player's cached squared
      radius is right, its radius is positive, and damage is never
      negative. */
  predicate Inv(g: Game) {
    Valid(g.player.body) && g.player.body.radius > 0.0 && g.damage >= 0.0
  }

  // ---------------------------------------------------------------------
  // Removal of the invaders the player touches

  /** The invaders of `s` that `hunter` does not reach, in their order in
      `s`. This is the reference for what survives a tick. */
  function Kept(hunter: Thing, s: seq<Invader>): (r: seq<Invader>)
    requires Valid(hunter)
    decreases |s|
  {
    if s == [] then []
    else
      var last := s[|s| - 1];
      Kept(hunter, s[..|s| - 1]) + (if Geometry.Collides(hunter, last.body) then [] else [last])
  }

  /** Adding one invader at the end of the sequence adds it to the kept
      ones exactly when it is out of reach. */
  lemma KeptSnoc(hunter: Thing, s: seq<Invader>, v: Invader)
    requires Valid(hunter)
    ensures Kept(hunter, s + [v])
            == Kept(hunter, s) + (if Geometry.Collides(hunter, v.body) then [] else [v])
  {
    assert (s + [v])[..|s|] == s;
  }

  /** An invader is kept exactly when it is in the sequence and is out of
      reach; nothing is invented and nothing is duplicated. */
  lemma {:induction false} KeptMembers(hunter: Thing, s: seq<Invader>)
    requires Valid(hunter)
    ensures forall v :: v in Kept(hunter, s) <==> v in s && !Geometry.Collides(hunter, v.body)
    ensures multiset(Kept(hunter, s)) <= multiset(s)
    ensures |Kept(hunter, s)| <= |s|
    decreases |s|
  {
    if s != [] {
      var init := s[..|s| - 1];
      KeptMembers(hunter, init);
      assert s == init + [s[|s| - 1]];
    }
  }

  /** Filtering distributes over concatenation, so the kept invaders stay in
      their original relative order. */
  lemma {:induction false} KeptAppend(hunter: Thing, a: seq<Invader>, b: seq<Invader>)
    requires Valid(hunter)
    ensures Kept(hunter, a + b) == Kept(hunter, a) + Kept(hunter, b)
    decreases |b|
  {
    if b == [] {
      assert a + b == a;
    } else {
      var init := b[..|b| - 1];
      KeptAppend(hunter, a, init);
      assert (a + b)[..|a + b| - 1] == a + init;
      assert (a + b)[|a + b| - 1] == b[|b| - 1];
    }
  }

  /** Position of the first invader equal to `v`; the one that Python's
      `list.remove` looks for. */
  function FirstIndex(s: seq<Invader>, v: Invader): (k: nat)
    requires v in s
    ensures k < |s| && s[k] == v && v !in s[..k]
  {
    if s[0] == v then 0
    else
      var k := 1 + FirstIndex(s[1..], v);
      assert s[..k] == [s[0]] + s[1..][..k - 1];
      k
  }

  /** The first position is the only one holding `v` with no `v` before
      it. */
  lemma FirstIndexUnique(s: seq<Invader>, v: Invader, k: nat)
    requires k < |s| && s[k] == v && v !in s[..k]
    ensures FirstIndex(s, v) == k
  {
  }

  /** Removes the first invader equal to `v`. The source removes by object
      identity; invaders equal by value stand at the same place with the
      same radius, so they always share a verdict and the resulting
      sequence is the same either way. */
  function RemoveFirst(s: seq<Invader>, v: Invader): (r: seq<Invader>)
    requires v in s
    ensures |r| == |s| - 1
  {
    var k := FirstIndex(s, v);
    s[..k] + s[k + 1..]
  }

  /** Removal takes out exactly one copy of `v` and keeps every other
      invader. A standalone fact about `list.remove`; the removal loop does
      not need it. */
  lemma RemoveFirstMultiset(s: seq<Invader>, v: Invader)
    requires v in s
    ensures multiset(RemoveFirst(s, v)) == multiset(s) - multiset{v}
  {
    var k := FirstIndex(s, v);
    assert s == s[..k] + [v] + s[k + 1..];
  }

  /** What `list.remove` leaves: when `v` first occurs right after `a`, that
      copy goes and everything else stays in order. */
  lemma RemoveFirstAt(a: seq<Invader>, v: Invader, b: seq<Invader>)
    requires v !in a
    ensures RemoveFirst(a + ([v] + b), v) == a + b
  {
    var ab := a + ([v] + b);
    assert ab[..|a|] == a;
    assert ab[|a|] == v;
    FirstIndexUnique(ab, v, |a|);
    assert ab[|a| + 1..] == b;
  }

  /** Removing `v` from `a + b` when `v` is not in `a` removes it from `b`.
      A standalone fact about `list.remove`; the removal loop does not need
      it. */
  lemma RemoveFirstSkips(a: seq<Invader>, b: seq<Invader>, v: Invader)
    requires v !in a && v in b
    ensures RemoveFirst(a + b, v) == a + RemoveFirst(b, v)
  {
    var j := FirstIndex(b, v);
    var ab := a + b;
    var k := |a| + j;
    assert ab[..k] == a + b[..j];
    assert v !in ab[..k];
    assert ab[k] == v;
    FirstIndexUnique(ab, v, k);
    assert ab[k + 1..] == b[j + 1..];
    assert (a + b[..j]) + b[j + 1..] == a + (b[..j] + b[j + 1..]);
  }

  /** The result of the removal loop: the player after every test, and the
      invaders still alive. */
  datatype Swept = Swept(player: Players.Player, live: seq<Invader>)

  /** The removal loop of a tick. It walks a snapshot of the invaders taken
      before the loop, split into the part already examined (`done`) and the
      part still to examine (`pending`). For each invader it runs the player's
      collision test, which scores a hit, and on a hit removes that invader
      from the live sequence. Throughout, `live` holds the examined invaders
      that were missed, followed by the unexamined ones. */
  function Sweep(p: Players.Player, done: seq<Invader>, pending: seq<Invader>, live: seq<Invader>): (r: Swept)
    requires Valid(p.body)
    requires live == Kept(p.body, done) + pending
    ensures r.live == Kept(p.body, done + pending)
    ensures r.player.body == p.body && r.player.move == p.move && r.player.step == p.step
    ensures r.player.score + |r.live| == p.score + |live|
    decreases |pending|
  {
    if pending == [] then
      assert done + pending == done;
      Swept(p, live)
    else
      var inv := pending[0];
      var probe := Players.Collides(p, inv.body);
      var live' := if probe.hit then RemoveFirst(live, inv) else live;
      assert pending == [inv] + pending[1..];
      SweepStep(p.body, done, inv, pending[1..], live, probe.hit);
      assert done + pending == (done + [inv]) + pending[1..];
      Sweep(probe.player, done + [inv], pending[1..], live')
  }

  /** One step of the removal loop keeps its invariant: a hit invader is
      not among those already kept, so removing its first occurrence from
      the live sequence removes the unexamined copy. */
  lemma SweepStep(hunter: Thing, done: seq<Invader>, inv: Invader, rest: seq<Invader>, live: seq<Invader>, hit: bool)
    requires Valid(hunter)
    requires live == Kept(hunter, done) + ([inv] + rest)
    requires hit == Geometry.Collides(hunter, inv.body)
    ensures hit ==> inv in live && RemoveFirst(live, inv) == Kept(hunter, done + [inv]) + rest
    ensures !hit ==> live == Kept(hunter, done + [inv]) + rest
  {
    var kept := Kept(hunter, done);
    KeptSnoc(hunter, done, inv);
    if hit {
      assert inv !in kept by {
        KeptMembers(hunter, done);
      }
      RemoveFirstAt(kept, inv, rest);
    } else {
      assert live == (kept + [inv]) + rest;
    }
  }

  // ---------------------------------------------------------------------
  // The tick

  datatype TickResult = TickResult(game: Game, next: Option<nat>)

  /** Damage after the removal loop, given how many invaders survived. */
  function NextDamage(damage: real, survivors: nat): (d: real)
    ensures survivors > 0 ==> d == damage + Ppi * survivors as real && d >= damage
    ensures survivors == 0 ==> d == damage * Decay
    ensures survivors == 0 && damage >= 0.0 ==> 0.0 <= d <= damage
    ensures survivors == 0 && damage > 0.0 ==> d < damage
  {
    if survivors > 0 then damage + Ppi * survivors as real else damage * Decay
  }

  /** One tick. At or above the threshold the round ends: the game stops
      running, nothing else changes, and no further tick is scheduled.
      Below it the player moves, every invader the moved player reaches is
      removed and scored, the damage is updated from the survivor count,
      and the next tick is due after `Interval`. */
  function Tick(g: Game): (r: TickResult)
    requires Valid(g.player.body)
    ensures Valid(r.game.player.body)
    ensures r.game.player.body.radius == g.player.body.radius
    ensures r.game.player.move == g.player.move && r.game.player.step == g.player.step
    ensures g.damage >= Threshold ==>
              && !r.game.running && r.next == None
              && r.game.player == g.player
              && r.game.invaders == g.invaders
              && r.game.damage == g.damage
    ensures g.damage < Threshold ==>
              && r.game.running == g.running && r.next == Some(Interval)
              && r.game.player.body.x == g.player.body.x + g.player.move.dx
              && r.game.player.body.y == g.player.body.y + g.player.move.dy
              && r.game.invaders == Kept(r.game.player.body, g.invaders)
              && (forall v :: v in r.game.invaders ==> !Geometry.Collides(r.game.player.body, v.body))
              && r.game.player.score == g.player.score + (|g.invaders| - |r.game.invaders|)
              && r.game.damage == NextDamage(g.damage, |r.game.invaders|)
  {
    if g.damage >= Threshold then
      TickResult(g.(running := false), None)
    else
      var moved := Players.Update(g.player);
      assert [] + g.invaders == g.invaders;
      var swept := Sweep(moved, [], g.invaders, g.invaders);
      KeptMembers(moved.body, g.invaders);
      var damage := NextDamage(g.damage, |swept.live|);
      TickResult(Game(swept.player, swept.live, damage, g.running), Some(Interval))
  }

  // ---------------------------------------------------------------------
  // Reset and spawn

  /** The reset after a game over: damage and score back to zero, every
      invader gone, running again. The player keeps its position, radius and
      move vector. */
  function Reset(g: Game): (r: Game)
    ensures r.damage == 0.0 && r.player.score == 0 && r.invaders == [] && r.running
    ensures r.player.body == g.player.body && r.player.move == g.player.move
    ensures r.player.step == g.player.step
    ensures Valid(g.player.body) && g.player.body.radius > 0.0 ==> Inv(r)
  {
    Game(g.player.(score := 0), [], 0.0, true)
  }

  datatype SpawnResult = SpawnResult(game: Game, next: Option<nat>)

  /** One firing of the spawner. The canvas size and the three random draws
      are parameters: the position (x, y) drawn from [0, width] x [0, height]
      and `extra` drawn from [0, SpawnTimer]. The new invader is appended,
      whether or not the game is running; only a running game re-arms the
      spawner, after SpawnTimer + extra milliseconds. */
  function Spawn(g: Game, width: int, height: int, x: int, y: int, extra: int, radius: real): (r: SpawnResult)
    requires 0 <= x <= width && 0 <= y <= height
    requires 0 <= extra <= SpawnTimer
    ensures |r.game.invaders| == |g.invaders| + 1
    ensures r.game.invaders[..|g.invaders|] == g.invaders
    ensures var v := r.game.invaders[|g.invaders|];
            && v.body.x == x as real && v.body.y == y as real && v.body.radius == radius
            && Valid(v.body)
            && 0.0 <= v.body.x <= width as real && 0.0 <= v.body.y <= height as real
    ensures r.game.player == g.player && r.game.damage == g.damage && r.game.running == g.running
    ensures g.running ==> r.next == Some(SpawnTimer + extra)
    ensures g.running ==> r.next.Some? && SpawnTimer <= r.next.value <= 2 * SpawnTimer
    ensures !g.running ==> r.next == None
    ensures Inv(g) ==> Inv(r.game)
  {
    var v := Invader(NewThing(x as real, y as real, radius));
    var next := if g.running then Some(SpawnTimer + extra) else None;
    assert (g.invaders + [v])[..|g.invaders|] == g.invaders;
    SpawnResult(g.(invaders := g.invaders + [v]), next)
  }

  // ---------------------------------------------------------------------
  // Properties of runs

  /** A spawned invader joins the end of the survivors of the next removal
      loop exactly when the player cannot reach it; the earlier invaders
      fare as they would have without it. */
  lemma SpawnThenKept(g: Game, width: int, height: int, x: int, y: int, extra: int, radius: real, hunter: Thing)
    requires 0 <= x <= width && 0 <= y <= height && 0 <= extra <= SpawnTimer
    requires Valid(hunter)
    ensures var spawned := Spawn(g, width, height, x, y, extra, radius).game.invaders;
            var v := spawned[|g.invaders|];
            Kept(hunter, spawned)
            == Kept(hunter, g.invaders) + (if Geometry.Collides(hunter, v.body) then [] else [v])
  {
    var spawned := Spawn(g, width, height, x, y, extra, radius).game.invaders;
    assert spawned == g.invaders + [spawned[|g.invaders|]];
    KeptSnoc(hunter, g.invaders, spawned[|g.invaders|]);
  }

  /** A tick keeps the game invariant; in particular damage never goes
      negative. */
  lemma TickKeepsInv(g: Game)
    requires Inv(g)
    ensures Inv(Tick(g).game)
  {
    if g.damage < Threshold {
      var n := |Tick(g).game.invaders|;
      assert Tick(g).game.damage == NextDamage(g.damage, n);
    }
  }

  /** The round ends once: a tick at the threshold leaves a stopped game
      that a further tick does not change, and neither tick re-arms. */
  lemma GameOverIsFinal(g: Game)
    requires Valid(g.player.body) && g.damage >= Threshold
    ensures Tick(Tick(g).game) == Tick(g)
  {
  }

  /** A tick right after a reset never ends the round. */
  lemma ResetThenTickRuns(g: Game)
    requires Valid(g.player.body)
    ensures Tick(Reset(g)).next == Some(Interval)
    ensures Tick(Reset(g)).game.running
    ensures Tick(Reset(g)).game.damage == 0.0
  {
  }

  /** `n` ticks in a row. */
  function Run(g: Game, n: nat): (r: Game)
    requires Valid(g.player.body)
    ensures Valid(r.player.body)
    decreases n
  {
    if n == 0 then g else Tick(Run(g, n - 1)).game
  }

  /** One tick with one invader out of reach of a player standing still,
      below the threshold: the damage grows by `Ppi` and nothing else
      changes. */
  lemma IdleTick(g: Game)
    requires Valid(g.player.body)
    requires g.player.move == Players.Vec(0.0, 0.0)
    requires |g.invaders| == 1 && !Geometry.Collides(g.player.body, g.invaders[0].body)
    requires g.damage < Threshold
    ensures Tick(g).game == g.(damage := g.damage + Ppi)
  {
    var body := g.player.body;
    assert Kept(body, g.invaders) == g.invaders by {
      assert g.invaders == [] + [g.invaders[0]];
      assert g.invaders[..0] == [];
    }
    var t := Tick(g).game;
    assert t.player.body == body;
    assert t.invaders == g.invaders;
    assert t.player == g.player;
    assert t.damage == NextDamage(g.damage, 1);
  }

  /** One invader out of reach of a player standing still: after `n` ticks
      from zero damage, as long as `Ppi * n` has not passed the threshold,
      the damage is exactly `Ppi * n` and nothing else has changed. */
  lemma {:induction false} IdleRun(g: Game, n: nat)
    requires Valid(g.player.body)
    requires g.player.move == Players.Vec(0.0, 0.0)
    requires |g.invaders| == 1 && !Geometry.Collides(g.player.body, g.invaders[0].body)
    requires g.damage == 0.0 && g.running
    requires Ppi * n as real <= Threshold
    ensures Run(g, n) == g.(damage := Ppi * n as real)
    decreases n
  {
    if n > 0 {
      IdleRun(g, n - 1);
      IdleTick(Run(g, n - 1));
    }
  }

  /** With one idle invader out of reach the meter reaches exactly 100
      after `n` ticks, not before, and the next tick ends the round. `n` is
      Threshold / Ppi = 500; it stays a parameter so that the ticks are
      counted by `IdleRun` rather than unfolded one by one. */
  lemma BurnOutAfter500Ticks(g: Game, n: nat)
    requires Valid(g.player.body)
    requires g.player.move == Players.Vec(0.0, 0.0)
    requires |g.invaders| == 1 && !Geometry.Collides(g.player.body, g.invaders[0].body)
    requires g.damage == 0.0 && g.running
    requires n == 500
    ensures Run(g, n - 1).damage < Threshold
    ensures Run(g, n).damage == Threshold
    ensures !Tick(Run(g, n)).game.running && Tick(Run(g, n)).next == None
  {
    IdleRun(g, n - 1);
    IdleRun(g, n);
  }

  /** With no invaders, a tick at damage 50 leaves damage 49.9. */
  lemma DecayFromFifty(g: Game)
    requires Valid(g.player.body) && g.invaders == [] && g.damage == 50.0
    ensures Tick(g).game.damage == 49.9
  {
    assert g.invaders[..0] == [];
  }

  /** A player of radius 32 at (0, 0) standing still reaches an invader of
      radius 8 at (10, 10) (squared distance 200 <= 1024): the tick removes
      it and scores one point. */
  lemma TouchScores(g: Game)
    requires g.player.body == Thing(0.0, 0.0, 32.0, 1024.0)
    requires g.player.move == Players.Vec(0.0, 0.0)
    requires g.invaders == [Invader(Thing(10.0, 10.0, 8.0, 64.0))]
    requires g.damage == 0.0
    ensures Tick(g).game.invaders == []
    ensures Tick(g).game.player.score == g.player.score + 1
  {
    Players.UpdateStill(g.player);
    var inv := g.invaders[0];
    assert Geometry.Collides(g.player.body, inv.body) by {
      assert DistSq(g.player.body, inv.body) == 200.0;
    }
    assert g.invaders[..0] == [];
    assert Kept(g.player.body, g.invaders) == [];
  }
}

=== FILE: eventloop.dfy ===
/** The event loop around the game: which timers are armed, whether the
    click that restarts a round is bound, and how each event changes the
    game.

    The loop runs one handler at a time. The tick timer and the spawn timer
    are each either armed or not; the order in which armed timers fire and
    their delays are left to the environment, which is why any armed timer
    may fire next. Key and pointer handlers are always bound; the click
    handler is bound only while the round is over.
 */
module EventLoop {
  import opened RealArith
  import Players
  import CInvaders

  datatype Loop = Loop(
    game: CInvaders.Game,
    tickArmed: bool,
    spawnArmed: bool,
    clickBound: bool,
    invaderRadius: real)

  datatype Event =
    | TickFired
      /** The spawn timer fired; the canvas size and the random draws of
          that firing come with it. */
    | SpawnFired(width: int, height: int, x: int, y: int, extra: int)
    | KeyPress(key: string)
    | KeyRelease(key: string)
      /** Pointer motion to (px, py); `mag` is the distance from the player's
          centre. */
    | Motion(px: real, py: real, mag: real)
    | Click

  /** At start-up both timers are armed and the click is not bound. */
  function Start(invaderRadius: real): (s: Loop)
    ensures Inv(s) && s.game == CInvaders.Initial()
  {
    Loop(CInvaders.Initial(), true, true, false, invaderRadius)
  }

  /** A running round has both timers armed and no click handler; a round
      that is over has neither timer armed and the click handler bound. */
  predicate Inv(s: Loop) {
    && CInvaders.Inv(s.game)
    && s.tickArmed == s.game.running
    && s.spawnArmed == s.game.running
    && s.clickBound == !s.game.running
  }

  /** Events the loop can deliver in state `s`: a timer only when armed,
      random draws only from their ranges, and the true distance with a
      pointer motion. */
  predicate Enabled(s: Loop, e: Event) {
    match e
    case TickFired => s.tickArmed
    case SpawnFired(width, height, x, y, extra) =>
      s.spawnArmed && 0 <= x <= width && 0 <= y <= height && 0 <= extra <= CInvaders.SpawnTimer
    case Motion(px, py, mag) =>
      mag >= 0.0 && Sq(mag) == Sq(px - s.game.player.body.x) + Sq(py - s.game.player.body.y)
    case _ => true
  }

  /** The handler of one event. */
  function Handle(s: Loop, e: Event): (r: Loop)
    requires Inv(s) && Enabled(s, e)
    ensures Inv(r)
    ensures r.invaderRadius == s.invaderRadius
    ensures e.KeyPress? || e.KeyRelease? || e.Motion? ==>
              && r.game.player.body == s.game.player.body
              && r.game.player.score == s.game.player.score
              && r.game.player.step == s.game.player.step
              && r.game.invaders == s.game.invaders
              && r.game.damage == s.game.damage
              && r.game.running == s.game.running
    ensures e.Click? && s.game.running ==> r == s
    ensures e.Click? && !s.game.running ==>
              r.game.running && r.game.damage == 0.0 && r.game.invaders == []
              && r.game.player.score == 0
    ensures e.SpawnFired? ==> |r.game.invaders| == |s.game.invaders| + 1
    ensures e.TickFired? ==> (r.game.running <==> s.game.damage < CInvaders.Threshold)
    ensures e.TickFired? ==> r.game == CInvaders.Tick(s.game).game
    ensures e.SpawnFired? ==>
              r.game == CInvaders.Spawn(s.game, e.width, e.height, e.x, e.y, e.extra, s.invaderRadius).game
  {
    match e
    case TickFired =>
      var t := CInvaders.Tick(s.game);
      CInvaders.TickKeepsInv(s.game);
      if t.next.None? then
        s.(game := t.game, tickArmed := false, spawnArmed := false, clickBound := true)
      else
        s.(game := t.game)
    case SpawnFired(width, height, x, y, extra) =>
      var sp := CInvaders.Spawn(s.game, width, height, x, y, extra, s.invaderRadius);
      s.(game := sp.game, spawnArmed := sp.next.Some?)
    case KeyPress(key) =>
      s.(game := s.game.(player := Players.Moving(s.game.player, key)))
    case KeyRelease(key) =>
      s.(game := s.game.(player := Players.StopMoving(s.game.player, key)))
    case Motion(px, py, mag) =>
      s.(game := s.game.(player := Players.Toward(s.game.player, px, py, mag)))
    case Click =>
      if s.clickBound then
        s.(game := CInvaders.Reset(s.game), tickArmed := true, spawnArmed := true, clickBound := false)
      else
        s
  }

  /** After the round ends no timer can fire: no tick and no spawn happens
      until the click restarts the round. */
  lemma NoTimersWhileOver(s: Loop, e: Event)
    requires Inv(s) && !s.game.running
    requires e.TickFired? || e.SpawnFired?
    ensures !Enabled(s, e)
  {
  }

  /** The round ends exactly once: the tick that ends it disarms both
      timers, so no second tick can end it again, and only a click makes
      the loop run again. */
  lemma GameOverOnce(s: Loop)
    requires Inv(s) && Enabled(s, TickFired)
    requires s.game.damage >= CInvaders.Threshold
    ensures var r := Handle(s, TickFired);
            && !r.game.running && !r.tickArmed && !r.spawnArmed && r.clickBound
            && !Enabled(r, TickFired)
            && r.game.damage == s.game.damage && r.game.player == s.game.player
            && r.game.invaders == s.game.invaders
  {
  }

  /** A click after the round ended re-arms both timers at once. */
  lemma ClickResumes(s: Loop)
    requires Inv(s) && !s.game.running
    ensures var r := Handle(s, Click);
            && r.tickArmed && r.spawnArmed && !r.clickBound
            && r.game.player.body == s.game.player.body
  {
  }
}

=== FILE: geometry.dfy ===
/** Circles on the canvas and the game's collision test.

    A `Thing` is a centre, a radius and the square of that radius, which is
    computed once when the thing is built and cached beside it. The collision
    test compares the caller's cached squared radius with the squared distance
    between the two centres: only the caller's radius takes part, and a centre
    lying exactly on the caller's circle counts as a hit.
 */
module Geometry {
  import opened RealArith

  datatype Thing = Thing(x: real, y: real, radius: real, radiusSq: real)

  /** The cached squared radius agrees with the radius. */
  predicate Valid(t: Thing) {
    t.radiusSq == t.radius * t.radius
  }

  /** Builds a thing, computing its cached squared radius. */
  function NewThing(x: real, y: real, radius: real): (t: Thing)
    ensures Valid(t)
    ensures t.x == x && t.y == y && t.radius == radius
  {
    Thing(x, y, radius, radius * radius)
  }

  /** Squared Euclidean distance between the centres of `a` and `b`. */
  function DistSq(a: Thing, b: Thing): (d: real)
    ensures d >= 0.0
  {
    SqNonNegative(a.x - b.x);
    SqNonNegative(a.y - b.y);
    Sq(a.x - b.x) + Sq(a.y - b.y)
  }

  /** `hunter` hits `other` when the squared distance between the centres is at
      most the cached squared radius of `hunter`. */
  function Collides(hunter: Thing, other: Thing): (hit: bool)
    requires Valid(hunter)
    ensures hit <==> DistSq(hunter, other) <= hunter.radius * hunter.radius
  {
    hunter.radiusSq >= Sq(hunter.x - other.x) + Sq(hunter.y - other.y)
  }

  /** Moves a thing by (dx, dy), keeping its radius. */
  function Translate(t: Thing, dx: real, dy: real): (r: Thing)
    ensures Valid(t) ==> Valid(r)
    ensures r.x - t.x == dx && r.y - t.y == dy
    ensures r.radius == t.radius
  {
    t.(x := t.x + dx, y := t.y + dy)
  }

  /** Only the caller's radius matters: the other thing's radius and cached
      squared radius never change the verdict. */
  lemma CollidesIgnoresOtherRadius(hunter: Thing, other: Thing, r: real, rSq: real)
    requires Valid(hunter)
    ensures Collides(hunter, other) == Collides(hunter, other.(radius := r, radiusSq := rSq))
  {
  }

  /** The test is not symmetric: a big circle can reach the centre of a small
      one that cannot reach back. */
  lemma CollidesNotSymmetric()
    ensures Valid(Thing(0.0, 0.0, 10.0, 100.0)) && Valid(Thing(5.0, 0.0, 1.0, 1.0))
    ensures Collides(Thing(0.0, 0.0, 10.0, 100.0), Thing(5.0, 0.0, 1.0, 1.0))
    ensures !Collides(Thing(5.0, 0.0, 1.0, 1.0), Thing(0.0, 0.0, 10.0, 100.0))
  {
  }

  /** When both radii are equal in magnitude the test is symmetric. */
  lemma CollidesSymmetricForEqualRadii(a: Thing, b: Thing)
    requires Valid(a) && Valid(b)
    requires a.radiusSq == b.radiusSq
    ensures Collides(a, b) == Collides(b, a)
  {
    assert Sq(a.x - b.x) == Sq(b.x - a.x);
    assert Sq(a.y - b.y) == Sq(b.y - a.y);
  }

  /** The boundary counts: a centre at distance exactly `radius` along the x
      axis is a hit, and one any further along is not. */
  lemma CollidesBoundary(hunter: Thing, other: Thing, e: real)
    requires Valid(hunter) && hunter.radius >= 0.0
    requires other.y == hunter.y
    requires e > 0.0
    ensures other.x == hunter.x + hunter.radius ==> Collides(hunter, other)
    ensures other.x == hunter.x + hunter.radius + e ==> !Collides(hunter, other)
  {
    if other.x == hunter.x + hunter.radius + e {
      var d := hunter.radius + e;
      assert Sq(hunter.x - other.x) == d * d;
      assert d * d > hunter.radius * hunter.radius by {
        assert d * d == hunter.radius * hunter.radius + e * (2.0 * hunter.radius + e);
        assert e * (2.0 * hunter.radius + e) > 0.0;
      }
    }
  }

  /** A thing always hits any thing sharing its centre. */
  lemma CollidesSameCentre(hunter: Thing, other: Thing)
    requires Valid(hunter)
    requires other.x == hunter.x && other.y == hunter.y
    ensures Collides(hunter, other)
  {
    SqNonNegative(hunter.radius);
  }

  /** Growing the caller's radius (in magnitude) never loses a hit. */
  lemma CollidesMonotoneInRadius(hunter: Thing, other: Thing, r: real)
    requires Valid(hunter)
    requires 0.0 <= hunter.radius <= r
    ensures Collides(hunter, other) ==> Collides(NewThing(hunter.x, hunter.y, r), other)
  {
    assert hunter.radius * hunter.radius <= r * r by {
      assert r * r - hunter.radius * hunter.radius == (r - hunter.radius) * (r + hunter.radius);
      assert (r - hunter.radius) * (r + hunter.radius) >= 0.0;
    }
  }

  /** Moving both things by the same offset keeps the verdict. */
  lemma CollidesTranslationInvariant(hunter: Thing, other: Thing, dx: real, dy: real)
    requires Valid(hunter)
    ensures Collides(Translate(hunter, dx, dy), Translate(other, dx, dy)) == Collides(hunter, other)
  {
    assert Translate(hunter, dx, dy).x - Translate(other, dx, dy).x == hunter.x - other.x;
    assert Translate(hunter, dx, dy).y - Translate(other, dx, dy).y == hunter.y - other.y;
  }
}

=== FILE: players.dfy ===
/** The player: a `Thing` that also carries a speed, a per-tick move vector
    and a score.

    Key presses and releases write one axis of the move vector each; pointer
    motion overwrites the whole vector with a vector of length `step` aimed
    at the pointer, or with zero inside a small dead zone around the centre;
    every tick adds the move vector to the position. The player's collision
    test is the circle test of `Geometry` with one side effect: a hit adds one
    to the score.
 */
module Players {
  import opened RealArith
  import opened Geometry

  /** A per-tick displacement, one entry per axis (`move[0]`, `move[1]`). */
  datatype Vec = Vec(dx: real, dy: real)

  datatype Player = Player(body: Thing, step: real, move: Vec, score: nat)

  /** Pixels per tick while a direction key is held. */
  const Step: real := 4.0

  /** A new player stands still with score 0 at the given centre. */
  function NewPlayer(x: real, y: real, radius: real): (p: Player)
    ensures Valid(p.body)
    ensures p.body.x == x && p.body.y == y && p.body.radius == radius
    ensures p.step == Step && p.move == Vec(0.0, 0.0) && p.score == 0
  {
    Player(NewThing(x, y, radius), Step, Vec(0.0, 0.0), 0)
  }

  /** The verdict of a collision test and the player after it. */
  datatype Probe = Probe(hit: bool, player: Player)

  /** The player's collision test: the circle test with the player as caller,
      and one point added to the score on a hit. Nothing else changes. */
  function Collides(p: Player, other: Thing): (r: Probe)
    requires Valid(p.body)
    ensures r.hit <==> DistSq(p.body, other) <= p.body.radius * p.body.radius
    ensures r.player.score == if r.hit then p.score + 1 else p.score
    ensures r.player.body == p.body && r.player.move == p.move && r.player.step == p.step
  {
    if Geometry.Collides(p.body, other) then
      Probe(true, p.(score := p.score + 1))
    else
      Probe(false, p)
  }

  predicate IsHorizontal(key: string) {
    key == "Right" || key == "Left"
  }

  predicate IsVertical(key: string) {
    key == "Up" || key == "Down"
  }

  /** Key press: "Right"/"Left" set the x entry to +step/-step, "Up"/"Down"
      set the y entry to -step/+step (screen y grows downwards); any other key
      is ignored. */
  function Moving(p: Player, key: string): (r: Player)
    ensures r.body == p.body && r.step == p.step && r.score == p.score
    ensures IsHorizontal(key) ==> r.move.dy == p.move.dy
    ensures IsVertical(key) ==> r.move.dx == p.move.dx
    ensures key == "Right" ==> r.move.dx == p.step
    ensures key == "Left" ==> r.move.dx == -p.step
    ensures key == "Up" ==> r.move.dy == -p.step
    ensures key == "Down" ==> r.move.dy == p.step
    ensures !IsHorizontal(key) && !IsVertical(key) ==> r == p
  {
    if key == "Right" then p.(move := p.move.(dx := p.step))
    else if key == "Left" then p.(move := p.move.(dx := -p.step))
    else if key == "Up" then p.(move := p.move.(dy := -p.step))
    else if key == "Down" then p.(move := p.move.(dy := p.step))
    else p
  }

  /** Key release: a horizontal key zeroes the x entry, a vertical key the y
      entry, whichever of the pair was released; any other key is ignored. */
  function StopMoving(p: Player, key: string): (r: Player)
    ensures r.body == p.body && r.step == p.step && r.score == p.score
    ensures IsHorizontal(key) ==> r.move == Vec(0.0, p.move.dy)
    ensures IsVertical(key) ==> r.move == Vec(p.move.dx, 0.0)
    ensures !IsHorizontal(key) && !IsVertical(key) ==> r == p
  {
    if IsHorizontal(key) then p.(move := p.move.(dx := 0.0))
    else if IsVertical(key) then p.(move := p.move.(dy := 0.0))
    else p
  }

  /** Pointer seek towards (px, py). The square root of the squared distance
      is supplied as `mag`. Inside the dead zone (closer than half the radius)
      the player stops; elsewhere the move vector points at the pointer and
      has length |step|. `Mul(a, b)` is `a * b` (see `RealArith`). */
  function Toward(p: Player, px: real, py: real, mag: real): (r: Player)
    requires p.body.radius > 0.0
    requires mag >= 0.0 && Sq(mag) == Sq(px - p.body.x) + Sq(py - p.body.y)
    ensures r.body == p.body && r.step == p.step && r.score == p.score
    ensures 4.0 * (Sq(px - p.body.x) + Sq(py - p.body.y)) < Sq(p.body.radius)
            ==> r.move == Vec(0.0, 0.0)
    ensures 4.0 * (Sq(px - p.body.x) + Sq(py - p.body.y)) >= Sq(p.body.radius)
            ==> && Sq(r.move.dx) + Sq(r.move.dy) == Sq(p.step)
                && Mul(r.move.dx, py - p.body.y) == Mul(r.move.dy, px - p.body.x)
                && (p.step >= 0.0 ==> Mul(r.move.dx, px - p.body.x) + Mul(r.move.dy, py - p.body.y) >= 0.0)
  {
    var dx := px - p.body.x;
    var dy := py - p.body.y;
    DeadZone(mag, p.body.radius, Sq(dx) + Sq(dy));
    if mag < p.body.radius / 2.0 then
      p.(move := Vec(0.0, 0.0))
    else
      var ux := dx / mag;
      var uy := dy / mag;
      MulDivCancel(dx, mag);
      MulDivCancel(dy, mag);
      UnitDirection(dx, dy, mag);
      ScaledDirection(p.step, ux, uy, dx, dy, mag);
      p.(move := Vec(Mul(p.step, ux), Mul(p.step, uy)))
  }

  /** `mag < radius / 2` is the squared comparison `4 * mag^2 < radius^2`. */
  lemma DeadZone(mag: real, radius: real, magSq: real)
    requires mag >= 0.0 && radius > 0.0 && Sq(mag) == magSq
    ensures mag < radius / 2.0 <==> 4.0 * magSq < Sq(radius)
  {
    var h := radius / 2.0;
    assert Sq(radius) == 4.0 * Sq(h);
    if mag < h {
      SqLess(mag, h);
    } else if mag > h {
      SqLess(h, mag);
    }
  }

  /** Dividing (dx, dy) by its length gives a unit vector. */
  lemma UnitDirection(dx: real, dy: real, mag: real)
    requires mag > 0.0 && Sq(mag) == Sq(dx) + Sq(dy)
    ensures Sq(dx / mag) + Sq(dy / mag) == 1.0
  {
    var ux := dx / mag;
    var uy := dy / mag;
    MulDivCancel(dx, mag);
    MulDivCancel(dy, mag);
    SqOfMul(ux, mag);
    SqOfMul(uy, mag);
    MulDistrib(Sq(ux), Sq(uy), Sq(mag));
    assert Mul(Sq(ux) + Sq(uy), Sq(mag)) == Mul(1.0, Sq(mag));
    SqPos(mag);
    MulCancel(Sq(ux) + Sq(uy), 1.0, Sq(mag));
  }

  /** Scaling the unit vector (ux, uy) = (dx, dy) / mag by `step` gives a
      vector of length |step| parallel to (dx, dy), pointing the same way
      when `step` is non-negative. */
  lemma ScaledDirection(step: real, ux: real, uy: real, dx: real, dy: real, mag: real)
    requires mag > 0.0 && Mul(ux, mag) == dx && Mul(uy, mag) == dy
    requires Sq(ux) + Sq(uy) == 1.0
    ensures Sq(Mul(step, ux)) + Sq(Mul(step, uy)) == Sq(step)
    ensures Mul(Mul(step, ux), dy) == Mul(Mul(step, uy), dx)
    ensures step >= 0.0 ==> Mul(Mul(step, ux), dx) + Mul(Mul(step, uy), dy) >= 0.0
  {
    SqOfMul(step, ux);
    SqOfMul(step, uy);
    assert Mul(Sq(step), Sq(ux)) + Mul(Sq(step), Sq(uy)) == Mul(Sq(step), Sq(ux) + Sq(uy));
    assert Mul(Mul(step, ux), Mul(uy, mag)) == Mul(Mul(step, uy), Mul(ux, mag));
    assert Mul(Mul(step, ux), Mul(ux, mag)) + Mul(Mul(step, uy), Mul(uy, mag))
        == Mul(Mul(step, mag), Sq(ux) + Sq(uy));
    if step >= 0.0 {
      MulNonNegative(step, mag);
    }
  }

  /** One tick of movement: the move vector is added to the position. */
  function Update(p: Player): (r: Player)
    ensures Valid(p.body) ==> Valid(r.body)
    ensures r.body.x == p.body.x + p.move.dx && r.body.y == p.body.y + p.move.dy
    ensures r.body.radius == p.body.radius
    ensures r.step == p.step && r.move == p.move && r.score == p.score
  {
    p.(body := Translate(p.body, p.move.dx, p.move.dy))
  }

  /** A horizontal and a vertical key press commute: the axes are
      independent. */
  lemma MovingAxesIndependent(p: Player, h: string, v: string)
    requires IsHorizontal(h) && IsVertical(v)
    ensures Moving(Moving(p, h), v) == Moving(Moving(p, v), h)
  {
  }

  /** Two presses on the same axis: the last one wins. */
  lemma MovingLastPressWins(p: Player, k1: string, k2: string)
    requires (IsHorizontal(k1) && IsHorizontal(k2)) || (IsVertical(k1) && IsVertical(k2))
    ensures Moving(Moving(p, k1), k2) == Moving(p, k2)
  {
  }

  /** Pressing and then releasing either key of an axis leaves that axis at
      zero and the other axis as it was before the press. */
  lemma PressThenRelease(p: Player, k1: string, k2: string)
    requires (IsHorizontal(k1) && IsHorizontal(k2)) || (IsVertical(k1) && IsVertical(k2))
    ensures StopMoving(Moving(p, k1), k2) == StopMoving(p, k2)
  {
  }

  /** A player that does not move stays where it is. */
  lemma UpdateStill(p: Player)
    requires p.move == Vec(0.0, 0.0)
    ensures Update(p) == p
  {
  }

  /** Moving the player by its move vector is the same, for the collision
      test, as moving the other thing the opposite way. */
  lemma UpdateThenCollides(p: Player, other: Thing)
    requires Valid(p.body)
    ensures Update(p).body == Translate(p.body, p.move.dx, p.move.dy)
    ensures Collides(Update(p), other).hit
            == Geometry.Collides(p.body, Translate(other, -p.move.dx, -p.move.dy))
  {
    CollidesTranslationInvariant(p.body, Translate(other, -p.move.dx, -p.move.dy), p.move.dx, p.move.dy);
    assert Translate(Translate(other, -p.move.dx, -p.move.dy), p.move.dx, p.move.dy) == other;
  }

  /** Testing the same thing twice scores it twice: the caller must test
      each invader at most once per tick. */
  lemma CollidesTwiceScoresTwice(p: Player, other: Thing)
    requires Valid(p.body)
    requires Geometry.Collides(p.body, other)
    ensures Collides(Collides(p, other).player, other).player.score == p.score + 2
  {
  }
}

=== FILE: realarith.dfy ===
/** Small facts about products of reals used by the geometry proofs.

    Products are written through `Mul` in the statements below so that each
    fact is about a product as a whole; the solver then combines them
    linearly instead of re-deriving them from the factors.
 */
module RealArith {

  function Sq(v: real): real {
    v * v
  }

  function Mul(a: real, b: real): real {
    a * b
  }

  lemma SqNonNegative(v: real)
    ensures Sq(v) >= 0.0
  {
    if v < 0.0 {
      assert Sq(v) == (-v) * (-v);
    }
  }

  lemma MulPos(a: real, b: real)
    requires a > 0.0 && b > 0.0
    ensures Mul(a, b) > 0.0
  {
  }

  lemma MulNonNegative(a: real, b: real)
    requires a >= 0.0 && b >= 0.0
    ensures Mul(a, b) >= 0.0
  {
    if a > 0.0 && b > 0.0 {
      MulPos(a, b);
    }
  }

  lemma SqPos(a: real)
    requires a != 0.0
    ensures Sq(a) > 0.0
  {
    if a > 0.0 {
      MulPos(a, a);
    } else {
      MulPos(-a, -a);
      assert Mul(-a, -a) == Sq(a);
    }
  }

  lemma MulLessRight(a: real, b: real, c: real)
    requires a < b && c > 0.0
    ensures Mul(a, c) < Mul(b, c)
  {
    assert a * c < b * c;
  }

  lemma MulLeRight(a: real, b: real, c: real)
    requires a <= b && c >= 0.0
    ensures Mul(a, c) <= Mul(b, c)
  {
    assert a * c <= b * c;
  }

  /** Squaring is strictly increasing on the non-negative reals. */
  lemma SqLess(a: real, b: real)
    requires 0.0 <= a < b
    ensures Sq(a) < Sq(b)
  {
    MulLeRight(a, b, a);
    MulLessRight(a, b, b);
    assert Mul(b, a) == Mul(a, b);
  }

  lemma MulDivCancel(d: real, m: real)
    requires m != 0.0
    ensures Mul(d / m, m) == d
  {
  }

  lemma MulDistrib(a: real, b: real, c: real)
    ensures Mul(a, c) + Mul(b, c) == Mul(a + b, c)
  {
  }

  lemma MulCancel(a: real, b: real, c: real)
    requires c != 0.0 && Mul(a, c) == Mul(b, c)
    ensures a == b
  {
    assert (a - b) * c == 0.0;
  }

  lemma SqOfMul(a: real, b: real)
    ensures Sq(Mul(a, b)) == Mul(Sq(a), Sq(b))
  {
    assert (a * b) * (a * b) == (a * a) * (b * b);
  }
}

=== FILE: wrappers.dfy ===
/** An optional value: used for a timer that may or may not be re-armed. */
module Wrappers {

  datatype Option<+T> = None | Some(value: T)
}
